=== FILE: README.md ===
# Notes service: a Dafny model

A model of the notes backend: a REST service holding **notes** (optional
title, optional body, a `#RRGGBB` colour) and **tags** (a unique name), with
a many-to-many association between them. The model covers

- the payload rules of `NoteDto` and `TagDto` (size bounds, the hex web-colour
  pattern, "title or body must not be blank", a non-null tag name), written as
  predicates over `seq<char>` with no regex engine (module `Dto`, helpers in
  `Text`);
- the note entity's `prePersist` colour default and the column constraints of
  both tables (modules `Entities`, `Repositories`);
- every handler of `NotesController` and `TagsController` as a pure function
  from a store (`map<Id, Note>` and `map<Id, Tag>`) to an HTTP status, an
  optional body and the new store (modules `NotesController`, `TagsController`,
  `Responses`), and the name-ordered pagination of tags (module `Paging`).

A note's tags are held as the list of its join rows, i.e. tag ids. `Valid`
(in `Repositories`) is the store invariant: every row lies under its own id,
notes have a title of 1–50 characters when present, a body of at most 255
characters when present and a non-null colour of length 7, join rows point at existing tags and no note holds a tag twice, and
tag names are 1–50 characters and unique. Every handler that can write
requires it and proves it again of the store it returns. The read-only
handlers (`Get`, `List`, `ListByTagId`, `Paginate`) leave the store
untouched, and the listing ones rely on it for distinct rows and names.

Decisions the model makes explicit:

- Validation runs before the handler body, so an invalid payload is a 400
  even for an unknown id.
- A write refused by a database constraint (NOT NULL colour, body length,
  name length, unique tag name) is a 500 with the store unchanged.
- The `body` column declares no `length`, so the schema generated from the
  mapping makes it 255 characters wide. No payload rule bounds the body, so a
  longer body passes validation and the write is then refused (500).
- `POST /notes` returns the entity itself, so success is a 200 and not the
  201 the API annotations announce. `GET /notes/{id}` and `GET /tags/{id}`
  return an `Optional`: a 200 whose body is empty when the id is unknown, not
  a 404.
- Fresh ids are parameters with a "not yet used" precondition. The order in
  which the database lists rows is a parameter `rows` that enumerates a
  table's ids; the name-ordered page is proved not to depend on it.
- `PUT /notes/{id}` reads its payload from request parameters, as it has no
  `@RequestBody`. The model takes the bound payload as given.
- Both payload colour rules together only ever accept `#` plus six hex
  digits. The pattern also allows `#RGB`, but the size rule always refuses
  it (`Dto.ThreeDigitFormNeverAccepted`). This inconsistency is kept as it is.

## Model

| member | source | states |
|---|---|---|
| `Dto.IsColorHexColorValid` | backend/src/main/java/com/irbraga/notes/dto/NoteDto.java:17-27 | a colour passes exactly when it is null, or `#` followed by exactly six or exactly three characters of `[0-9a-fA-F]` |
| `Dto.TitleOrBodyEmptyIff` | backend/src/main/java/com/irbraga/notes/dto/NoteDto.java:33-36 | the "title or body empty" flag holds exactly when each of title and body is null or made only of characters that trimming strips |
| `Dto.NoteViolations` | backend/src/main/java/com/irbraga/notes/dto/NoteDto.java:10-36 | each of the four note constraints is reported exactly when it fails (title outside 1..50, colour not 7 long, colour not matching the pattern, title and body both blank) and no tag constraint ever is; none is reported exactly when the title is null or 1..50 long, the colour is null or `#` plus six hex digits, and title or body holds a character trimming keeps |
| `Dto.TagViolations` | backend/src/main/java/com/irbraga/notes/dto/TagDto.java:6 | `NameNull` is reported exactly when the name is null and `NameSize` exactly when a present name is outside 1..50, and no note constraint ever is; so a tag payload is accepted exactly when the name is non-null and 1..50 characters long, and a null name is reported as null only |
| `Dto.SixDigitFormIff` | backend/src/main/java/com/irbraga/notes/dto/NoteDto.java:12-17 | a seven-character colour matches the pattern exactly when it is `#` followed by six hex digits |
| `Dto.NullColorIsHexValid` | backend/src/main/java/com/irbraga/notes/dto/NoteDto.java:22-26 | a null colour passes the hex check and the colour size rule |
| `Dto.HexColorIff` | backend/src/main/java/com/irbraga/notes/dto/NoteDto.java:17-24 | a colour matches the pattern exactly when it is `#` followed by exactly six or exactly three characters of `[0-9a-fA-F]` |
| `Dto.NonHexCharacterRejected` | backend/src/main/java/com/irbraga/notes/dto/NoteDto.java:17-24 | a colour with any non-hex character after `#` (such as `#ZZZZZZ`) is reported as not hex |
| `Dto.AcceptedColorHasSixDigits` | backend/src/main/java/com/irbraga/notes/dto/NoteDto.java:12-24 | a colour in an accepted payload is `#` followed by six hex digits |
| `Dto.ThreeDigitFormNeverAccepted` | backend/src/main/java/com/irbraga/notes/dto/NoteDto.java:12-17 | `#RGB` passes the pattern but always fails the length-7 rule, so such a payload is refused |
| `Dto.WhitespaceTitleWithoutBodyRejected` | backend/src/main/java/com/irbraga/notes/dto/NoteDto.java:35 | a whitespace-only title with a null body is refused |
| `Dto.TitleOutOfRangeRejected` | backend/src/main/java/com/irbraga/notes/dto/NoteDto.java:10 | a non-null title outside 1..50 characters is refused |
| `Text.BlankIffAllTrimmable` | backend/src/main/java/com/irbraga/notes/dto/NoteDto.java:35 | `"".equals(s.trim())` holds exactly when every character of `s` is at most U+0020 |
| `NotesController.CopyProperties` | backend/src/main/java/com/irbraga/notes/controllers/NotesController.java:81 | the copied note carries exactly the payload's title, body and colour (nulls included), and keeps its id and tags |
| `Repositories.FindAll` | backend/src/main/java/com/irbraga/notes/controllers/NotesController.java:110 | one value per listed row, that row's value; for an enumeration of the table, every stored value appears |
| `Repositories.FindByTagsIdDistinct` | backend/src/main/java/com/irbraga/notes/repositories/NotesRepository.java:14 | over distinct rows each holding the note of its own id, the tag query lists every note at most once |
| `Paging.PageNumber` | backend/src/main/java/com/irbraga/notes/controllers/TagsController.java:99 | the requested page number, and page 0 when the request gives none |
| `Common.RemoveFirst` | backend/src/main/java/com/irbraga/notes/controllers/NotesController.java:178 | `List.remove(Object)` cuts out the first occurrence only, keeping the rest in order, and leaves a list without the element unchanged |
| `Entities.PrePersist` | backend/src/main/java/com/irbraga/notes/entities/NoteEntity.java:71-76 | the colour is afterwards non-null: the default `#FFFFFF` when it was null, unchanged otherwise; id, title, body and tags are untouched |
| `Entities.PrePersistIdempotent` | backend/src/main/java/com/irbraga/notes/entities/NoteEntity.java:72-76 | applying the hook twice equals applying it once |
| `Entities.DefaultColorIsValid` | backend/src/main/java/com/irbraga/notes/entities/NoteEntity.java:74 | the default colour has length 7 and matches the payload colour pattern |
| `Entities.PrePersistMeetsColumns` | backend/src/main/java/com/irbraga/notes/entities/NoteEntity.java:39-48 | a note whose title and colour passed payload validation meets every column constraint after the hook exactly when its body fits the 255-character column |
| `Repositories.SaveNote` | backend/src/main/java/com/irbraga/notes/entities/NoteEntity.java:39-48 | a note write succeeds exactly when the title is absent or 1..50 long, the body is absent or at most 255 long, the colour is non-null with length 7 and all join rows reference stored tags; it then changes that one row only |
| `Repositories.SaveTag` | backend/src/main/java/com/irbraga/notes/entities/TagEntity.java:35-37 | a tag write succeeds exactly when the name is 1..50 long and no other tag has it; it then changes that one row only |
| `Repositories.FindByTagsId` | backend/src/main/java/com/irbraga/notes/repositories/NotesRepository.java:14 | the result holds only listed notes carrying the tag, and every listed note carrying it |
| `Paging.PageSize` | backend/src/main/java/com/irbraga/notes/controllers/TagsController.java:99 | the page size is at least 1; 10 when the request gives no size or a size of 0; the requested size when it is 1 or more |
| `Paging.SortByName` | backend/src/main/java/com/irbraga/notes/controllers/TagsController.java:99-100 | the sorted tags are strictly ascending by name and hold exactly the input tags |
| `Paging.SortedUnique` | backend/src/main/java/com/irbraga/notes/controllers/TagsController.java:99-100 | two strictly name-ascending sequences with the same tags are identical, so the name order is unique |
| `Paging.Slice` | backend/src/main/java/com/irbraga/notes/controllers/TagsController.java:99-100 | a page holds at most `size` elements, starting at element `number * size`; it is full when enough elements remain, holds exactly the remaining elements on a partial last page, and is empty past the end |
| `NotesController.Create` | backend/src/main/java/com/irbraga/notes/controllers/NotesController.java:58-63 | an invalid payload is a 400 with the store unchanged; a valid payload whose body exceeds 255 characters is a 500 with the store unchanged; otherwise the new note is stored under the fresh id with the payload's title and body, the payload colour or `#FFFFFF`, and no tags (200) |
| `NotesController.UpdateAsWritten` | backend/src/main/java/com/irbraga/notes/controllers/NotesController.java:77-85 | as written: 400 for an invalid payload, 404 for an unknown id; for a stored note it succeeds exactly when the payload has a colour and a body of at most 255 characters, and when a colour is given it stores and returns exactly what the corrected update does; otherwise it is a 500 with the store unchanged |
| `NotesController.Update` | backend/src/main/java/com/irbraga/notes/controllers/NotesController.java:77-85 | 400 for an invalid payload, 404 for an unknown id; a body over 255 characters is a 500 with the store unchanged; otherwise title, body and a present colour overwrite that note only, keeping its id, tags and (when none is given) its colour (200) |
| `NotesController.UpdateWithoutColorFails` | backend/src/main/java/com/irbraga/notes/controllers/NotesController.java:81-82 | for any stored note and valid payload without a colour, the as-written update is a 500, while the corrected update is a 200 that keeps the colour whenever the body fits its column |
| `NotesController.UpdateWithoutColorExample` | backend/src/main/java/com/irbraga/notes/controllers/NotesController.java:81-82 | the payload {title: "t"} on a stored note with title "t" shows the failure |
| `NotesController.Get` | backend/src/main/java/com/irbraga/notes/controllers/NotesController.java:97-100 | always 200 with the store unchanged; a body exactly when the id is stored, and then that note |
| `NotesController.List` | backend/src/main/java/com/irbraga/notes/controllers/NotesController.java:108-111 | as many notes as are stored, every stored note, and only stored notes |
| `NotesController.ListByTagId` | backend/src/main/java/com/irbraga/notes/controllers/NotesController.java:121-124 | a stored note is listed exactly when it holds the tag; only stored notes are listed, each once; the list is empty when no note holds the tag |
| `NotesController.Delete` | backend/src/main/java/com/irbraga/notes/controllers/NotesController.java:136-144 | 404 with the store unchanged for an unknown id; otherwise exactly that note is removed and the rest is unchanged (200) |
| `NotesController.AddTag` | backend/src/main/java/com/irbraga/notes/controllers/NotesController.java:151-164 | 404 with the store unchanged unless both ids are stored; otherwise 200, the tag appended once when it was not attached, the store unchanged when it was, and no other note or tag changed |
| `NotesController.RemoveTag` | backend/src/main/java/com/irbraga/notes/controllers/NotesController.java:172-184 | 404 with the store unchanged unless both ids are stored; otherwise 200 and the tag is afterwards detached: cut out of its one position with the other tags in order, or the store unchanged when it was not attached |
| `NotesController.AddTagIdempotent` | backend/src/main/java/com/irbraga/notes/controllers/NotesController.java:156-161 | adding a tag a second time returns the same reply and store as the first time |
| `NotesController.AddTagAttachesOnce` | backend/src/main/java/com/irbraga/notes/controllers/NotesController.java:157-158 | after adding, the tag occurs exactly once in the note's tag list |
| `NotesController.DetachedNoteSaves` | backend/src/main/java/com/irbraga/notes/controllers/NotesController.java:178-180 | a stored note with one attached tag removed is a write the store accepts; the stored notes stay valid and the tag is gone from the note |
| `NotesController.RemoveTagIdempotent` | backend/src/main/java/com/irbraga/notes/controllers/NotesController.java:176-181 | removing a tag a second time returns the same reply and store as the first time |
| `NotesController.AddThenRemoveRestores` | backend/src/main/java/com/irbraga/notes/controllers/NotesController.java:151-184 | adding a tag that was not attached and then removing it gives back the original store |
| `NotesController.AddTagThenListByTag` | backend/src/main/java/com/irbraga/notes/controllers/NotesController.java:121-164 | right after a tag is added to a note, listing notes by that tag includes the note |
| `TagsController.Create` | backend/src/main/java/com/irbraga/notes/controllers/TagsController.java:62-67 | 400 for an invalid payload; 500 with the store unchanged when the name is taken; otherwise a tag with the payload name under the fresh id, status 201 |
| `TagsController.Update` | backend/src/main/java/com/irbraga/notes/controllers/TagsController.java:81-89 | 400 for an invalid payload; 404 with the store unchanged for an unknown id; otherwise 200 exactly when no other tag has the name, overwriting only that tag's name and keeping its id; 500 with the store unchanged when the name is taken |
| `TagsController.Get` | backend/src/main/java/com/irbraga/notes/controllers/TagsController.java:121-124 | always 200 with the store unchanged; a body exactly when the id is stored, and then that tag |
| `TagsController.List` | backend/src/main/java/com/irbraga/notes/controllers/TagsController.java:109-112 | as many tags as are stored, every stored tag, and only stored tags |
| `TagsController.Delete` | backend/src/main/java/com/irbraga/notes/controllers/TagsController.java:136-144 | 404 with the store unchanged for an unknown id; otherwise exactly that tag is removed, and every note loses that tag and nothing else (200) |
| `TagsController.DeleteDetachesEverywhere` | backend/src/main/java/com/irbraga/notes/controllers/TagsController.java:136-144 | after a tag is deleted, listing notes by it gives an empty list |
| `TagsController.Paginate` | backend/src/main/java/com/irbraga/notes/controllers/TagsController.java:98-101 | the page has the requested (or default) number and size and at most that many tags, all of them stored, in strictly ascending name order; it reports the total number of tags |
| `TagsController.PageIsSliceOfNameOrdering` | backend/src/main/java/com/irbraga/notes/controllers/TagsController.java:99-100 | page `p` of size `s` is the slice from `p*s` up to `min(p*s+s, n)` of the name-sorted tags |
| `TagsController.PageIndependentOfRowOrder` | backend/src/main/java/com/irbraga/notes/controllers/TagsController.java:99-100 | the same request gives the same page whatever order the database lists the rows in |
| `TagsController.DefaultPageIsFirstTen` | backend/src/main/java/com/irbraga/notes/controllers/TagsController.java:99 | with no page or size given, the page is number 0 of size 10 and holds the first ten tags in name order (fewer when there are fewer) |

## Findings

| source | as written | input that shows it | evidently intended | confidence | as-written member | corrected member |
|---|---|---|---|---|---|---|
| backend/src/main/java/com/irbraga/notes/controllers/NotesController.java:81-82 | `BeanUtils.copyProperties` copies a null payload colour onto the stored note. `prePersist` runs only on insert, so the write puts a null into the NOT NULL `color` column and fails with a server error | `PUT /notes/{id}?title=t`, with no colour, on any stored note | a payload without a colour leaves the stored colour as it is, and the update succeeds | medium, not executed | `NotesController.UpdateAsWritten` (exhibited by `NotesController.UpdateWithoutColorFails`, `NotesController.UpdateWithoutColorExample`) | `NotesController.Update` |

## Left out

- Spring and JPA plumbing: dependency injection, request binding, JSON serialisation, transactions, and the `SwaggerController` redirect.
- The frontend page (`frontend/notes-web-app/app/page.tsx`): it only fetches over the network and renders.
- Timestamps (`createdAt`, `updatedAt`) need a clock. UUID generation is replaced by a fresh-id parameter.
- The regex engine: the pattern is modelled directly as a check on each character position.
- Entity equality: `contains` and `remove` on a note's tags use Lombok's field-wise `equals`. The model compares tag ids instead.
- `CascadeType.ALL` on both sides of the many-to-many. JPA would cascade a removal to associated entities. The model follows join-row semantics: deleting a note drops its join rows, and deleting a tag drops its join rows from every note.
- The database collation: names are ordered character by character, with a proper prefix first.
- TagsController.Paginate: the offset `number * size` is an unbounded natural number. The service takes page and size as 32-bit `int`s and refuses an offset above `Integer.MAX_VALUE` with a server error; the model returns an empty page for such offsets instead.
- Page requests: a caller-chosen sort field and the framework's upper bound on page size are not modelled. A size of 0 falls back to the default.
- String length counts characters. Java counts UTF-16 code units, so the two differ for characters outside the Basic Multilingual Plane.
- Field-level error reports: validation computes exactly the set of failed constraints (`Dto.NoteViolations`, `Dto.TagViolations`), but the 400 reply carries no body; the per-field report and its messages are dropped.

=== FILE: common.dfy ===
/** Vocabulary shared by the whole model: nullable references, identifiers
    and the two list removals the service relies on. */
module Common {

  /** A Java reference that may be null. */
  datatype Option<T> = None | Some(value: T)

  /** What a nullable field holds, with `fallback` standing in for null. */
  function ValueOr<T>(x: Option<T>, fallback: T): T {
    if x.Some? then x.value else fallback
  }

  /** Entity identifiers (UUIDs in the service); only equality matters. */
  type Id = nat

  /** No element occurs twice. */
  predicate Distinct<T(==)>(xs: seq<T>) {
    forall i, j :: 0 <= i < j < |xs| ==> xs[i] != xs[j]
  }

  /** Position of the first occurrence of `x` in `xs`. */
  function FirstIndex<T(==)>(xs: seq<T>, x: T): (i: nat)
    requires x in xs
    ensures i < |xs| && xs[i] == x && x !in xs[..i]
  {
    if xs[0] == x then 0 else 1 + FirstIndex(xs[1..], x)
  }

  /** Cutting position `k + 1` out of `xs` is keeping its head and cutting position `k` out of its tail. */
  lemma CutCons<T>(xs: seq<T>, k: nat)
    requires k + 1 < |xs|
    ensures [xs[0]] + (xs[1..][..k] + xs[1..][k + 1..]) == xs[..k + 1] + xs[k + 2..]
  {
    assert [xs[0]] + xs[1..][..k] == xs[..k + 1];
    assert xs[1..][k + 1..] == xs[k + 2..];
  }

  /** `List.remove(Object)`: drops the first occurrence of `x`, if there is one. */
  function RemoveFirst<T(==)>(xs: seq<T>, x: T): (r: seq<T>)
    ensures x !in xs ==> r == xs
    ensures x in xs ==> r == xs[..FirstIndex(xs, x)] + xs[FirstIndex(xs, x) + 1..]
  {
    if |xs| == 0 then []
    else if xs[0] == x then
      assert FirstIndex(xs, x) == 0 && xs[..0] + xs[1..] == xs[1..];
      xs[1..]
    else if x in xs[1..] then
      var k := FirstIndex(xs[1..], x);
      assert FirstIndex(xs, x) == k + 1;
      CutCons(xs, k);
      [xs[0]] + RemoveFirst(xs[1..], x)
    else
      assert x !in xs && [xs[0]] + xs[1..] == xs;
      [xs[0]] + RemoveFirst(xs[1..], x)
  }

  /** Where the elements of `xs` land once position `i` is cut out. */
  lemma CutIndices<T>(xs: seq<T>, i: nat)
    requires i < |xs|
    ensures |xs[..i] + xs[i + 1..]| == |xs| - 1
    ensures forall j :: 0 <= j < i ==> (xs[..i] + xs[i + 1..])[j] == xs[j]
    ensures forall j :: i < j < |xs| ==> (xs[..i] + xs[i + 1..])[j - 1] == xs[j]
  {
  }

  /** Cutting one element out of a list without repetitions leaves none,
      and the cut element no longer occurs. */
  lemma CutKeepsDistinct<T>(xs: seq<T>, i: nat)
    requires Distinct(xs) && i < |xs|
    ensures Distinct(xs[..i] + xs[i + 1..]) && xs[i] !in xs[..i] + xs[i + 1..]
  {
    var r := xs[..i] + xs[i + 1..];
    CutIndices(xs, i);
    forall a, b | 0 <= a < b < |r|
      ensures r[a] != r[b]
    {
      var a' := if a < i then a else a + 1;
      var b' := if b < i then b else b + 1;
      assert r[a] == xs[a'] && r[b] == xs[b'] && a' < b';
    }
    forall j | 0 <= j < |r|
      ensures r[j] != xs[i]
    {
      var j' := if j < i then j else j + 1;
      assert r[j] == xs[j'] && j' != i;
    }
  }

  /** Removing from a list without repetitions leaves none, and removes `x` entirely. */
  lemma RemoveFirstKeepsDistinct<T>(xs: seq<T>, x: T)
    requires Distinct(xs)
    ensures Distinct(RemoveFirst(xs, x)) && x !in RemoveFirst(xs, x)
  {
    if x in xs {
      CutKeepsDistinct(xs, FirstIndex(xs, x));
    }
  }

  /** Drops every occurrence of `x`, keeping the order of the rest. */
  function Without<T(==)>(xs: seq<T>, x: T): (r: seq<T>)
    ensures x !in r
    ensures forall j :: 0 <= j < |r| ==> r[j] in xs
    ensures forall i :: 0 <= i < |xs| && xs[i] != x ==> xs[i] in r
    ensures x !in xs ==> r == xs
    ensures Distinct(xs) ==> Distinct(r)
  {
    if |xs| == 0 then []
    else if xs[0] == x then Without(xs[1..], x)
    else [xs[0]] + Without(xs[1..], x)
  }
}

=== FILE: dto.dfy ===
/** Request payloads and their bean-validation rules: `NoteDto` (title,
    body, colour) and `TagDto` (name). Validation yields the set of
    field-level violations; a payload is accepted when that set is empty. */
module Dto {
  import opened Common
  import opened Text

  datatype NoteDto = NoteDto(title: Option<string>, body: Option<string>, color: Option<string>)

  datatype TagDto = TagDto(name: Option<string>)

  /** One failed constraint, named after the annotation that reports it. */
  datatype Violation =
    | TitleSize         // @Size(min = 1, max = 50) on NoteDto.title
    | ColorSize         // @Size(min = 7, max = 7) on NoteDto.color
    | ColorNotHex       // @AssertTrue isColorHexColorValid
    | TitleOrBodyEmpty  // @AssertFalse isTitleOrBodyEmpty
    | NameNull          // @NotNull on TagDto.name
    | NameSize          // @Size(min = 1, max = 50) on TagDto.name

  /** `@Size(min, max)`: a null value passes; otherwise the length lies in [min, max]. */
  predicate SizeWithin(s: Option<string>, min: nat, max: nat) {
    s.None? || min <= |s.value| <= max
  }

  /** The character class `[a-fA-F0-9]`. */
  predicate IsHexDigit(c: char) {
    '0' <= c <= '9' || 'a' <= c <= 'f' || 'A' <= c <= 'F'
  }

  predicate AllHex(d: string) {
    forall i :: 0 <= i < |d| ==> IsHexDigit(d[i])
  }

  /** Whole-string match of `^#([a-fA-F0-9]{6}|[a-fA-F0-9]{3})$`, position by position. */
  predicate MatchesHexWebColor(s: string) {
    && (|s| == 7 || |s| == 4)
    && s[0] == '#'
    && forall i :: 1 <= i < |s| ==> IsHexDigit(s[i])
  }

  /** `isColorHexColorValid`: a null colour passes, any other must be `#`
      followed by exactly six or exactly three hex digits. */
  function IsColorHexColorValid(dto: NoteDto): (ok: bool)
    ensures ok <==>
      dto.color.None? || exists d :: AllHex(d) && (|d| == 6 || |d| == 3) && dto.color.value == ['#'] + d
  {
    if dto.color.Some? then HexColorIff(dto.color.value); MatchesHexWebColor(dto.color.value)
    else true
  }

  /** `s == null || "".equals(s.trim())`. */
  predicate IsNullOrBlank(s: Option<string>) {
    s.None? || IsBlank(s.value)
  }

  /** `isTitleOrBodyEmpty`. */
  predicate IsTitleOrBodyEmpty(dto: NoteDto) {
    IsNullOrBlank(dto.title) && IsNullOrBlank(dto.body)
  }

  /** The blank test read without trimming: title and body are each null or
      made only of characters that trimming strips. */
  lemma TitleOrBodyEmptyIff(dto: NoteDto)
    ensures IsTitleOrBodyEmpty(dto) <==>
      (dto.title.None? || AllTrimmable(dto.title.value)) &&
      (dto.body.None? || AllTrimmable(dto.body.value))
  {
    if dto.title.Some? {
      BlankIffAllTrimmable(dto.title.value);
    }
    if dto.body.Some? {
      BlankIffAllTrimmable(dto.body.value);
    }
  }

  /** The acceptance condition for a note payload, stated without the
      annotations: the title is null or 1 to 50 characters long, the colour
      is null or `#` plus six hex digits, and the title or the body holds a
      character trimming keeps. */
  predicate NoteAcceptable(dto: NoteDto) {
    && (dto.title.None? || 1 <= |dto.title.value| <= 50)
    && (dto.color.None? || (|dto.color.value| == 7 && dto.color.value[0] == '#' && AllHex(dto.color.value[1..])))
    && ((dto.title.Some? && !AllTrimmable(dto.title.value)) || (dto.body.Some? && !AllTrimmable(dto.body.value)))
  }

  /** Every constraint a `NoteDto` fails, each reported exactly when it
      fails; none fails exactly when the payload is acceptable. */
  function NoteViolations(dto: NoteDto): (r: set<Violation>)
    ensures NameNull !in r && NameSize !in r
    ensures TitleSize in r <==> dto.title.Some? && !(1 <= |dto.title.value| <= 50)
    ensures ColorSize in r <==> dto.color.Some? && |dto.color.value| != 7
    ensures ColorNotHex in r <==> !IsColorHexColorValid(dto)
    ensures TitleOrBodyEmpty in r <==> IsTitleOrBodyEmpty(dto)
    ensures r == {} <==> NoteAcceptable(dto)
  {
    var title := if SizeWithin(dto.title, 1, 50) then {} else {TitleSize};
    var size := if SizeWithin(dto.color, 7, 7) then {} else {ColorSize};
    var hex := if IsColorHexColorValid(dto) then {} else {ColorNotHex};
    var blank := if IsTitleOrBodyEmpty(dto) then {TitleOrBodyEmpty} else {};
    assert title <= {TitleSize} && size <= {ColorSize} && hex <= {ColorNotHex} && blank <= {TitleOrBodyEmpty};
    assert title + size + hex + blank == {} <==> title == {} && size == {} && hex == {} && blank == {};
    PassesAllIff(dto);
    title + size + hex + blank
  }

  /** All four note constraints pass exactly when the payload is acceptable. */
  lemma PassesAllIff(dto: NoteDto)
    ensures (SizeWithin(dto.title, 1, 50) && SizeWithin(dto.color, 7, 7) && IsColorHexColorValid(dto) && !IsTitleOrBodyEmpty(dto)) <==>
      NoteAcceptable(dto)
  {
    if dto.color.Some? {
      SixDigitFormIff(dto.color.value);
    }
    TitleOrBodyEmptyIff(dto);
  }

  /** Every constraint a `TagDto` fails: none exactly when the name is
      present and 1 to 50 characters long; only `NameNull` for a null name,
      since `@Size` lets null through. */
  function TagViolations(dto: TagDto): (r: set<Violation>)
    ensures TitleSize !in r && ColorSize !in r && ColorNotHex !in r && TitleOrBodyEmpty !in r
    ensures NameNull in r <==> dto.name.None?
    ensures NameSize in r <==> dto.name.Some? && !(1 <= |dto.name.value| <= 50)
    ensures r == {} <==> dto.name.Some? && 1 <= |dto.name.value| <= 50
    ensures dto.name.None? ==> r == {NameNull}
  {
    (if dto.name.Some? then {} else {NameNull})
    + (if SizeWithin(dto.name, 1, 50) then {} else {NameSize})
  }

  /** A seven-character colour matches the pattern exactly when it is `#` plus six hex digits. */
  lemma SixDigitFormIff(c: string)
    ensures (|c| == 7 && MatchesHexWebColor(c)) <==> (|c| == 7 && c[0] == '#' && AllHex(c[1..]))
  {
    if |c| == 7 && c[0] == '#' && AllHex(c[1..]) {
      forall i | 1 <= i < |c|
        ensures IsHexDigit(c[i])
      {
        assert c[i] == c[1..][i - 1];
      }
    }
    if |c| == 7 && MatchesHexWebColor(c) {
      forall i | 0 <= i < |c[1..]|
        ensures IsHexDigit(c[1..][i])
      {
        assert c[1..][i] == c[i + 1];
      }
    }
  }

  // ----- colour -----

  lemma NullColorIsHexValid(dto: NoteDto)
    requires dto.color.None?
    ensures IsColorHexColorValid(dto)
    ensures ColorNotHex !in NoteViolations(dto) && ColorSize !in NoteViolations(dto)
  {
  }

  /** The pattern read as a regular expression: `#` followed by exactly six
      or exactly three hex digits, and nothing else. */
  lemma HexColorIff(c: string)
    ensures MatchesHexWebColor(c) <==>
      exists d :: AllHex(d) && (|d| == 6 || |d| == 3) && c == ['#'] + d
  {
    if MatchesHexWebColor(c) {
      var d := c[1..];
      assert AllHex(d);
      assert c == ['#'] + d;
    }
    if exists d :: AllHex(d) && (|d| == 6 || |d| == 3) && c == ['#'] + d {
      var d :| AllHex(d) && (|d| == 6 || |d| == 3) && c == ['#'] + d;
      forall i | 1 <= i < |c|
        ensures IsHexDigit(c[i])
      {
        assert c[i] == d[i - 1];
      }
    }
  }

  /** A colour with a non-hex character after `#` (such as `#ZZZZZZ`) fails the pattern. */
  lemma NonHexCharacterRejected(dto: NoteDto, i: nat)
    requires dto.color.Some? && 1 <= i < |dto.color.value|
    requires !IsHexDigit(dto.color.value[i])
    ensures ColorNotHex in NoteViolations(dto)
  {
  }

  /** Under both colour rules an accepted colour is `#` plus six hex digits. */
  lemma AcceptedColorHasSixDigits(dto: NoteDto)
    requires NoteViolations(dto) == {} && dto.color.Some?
    ensures |dto.color.value| == 7 && dto.color.value[0] == '#'
    ensures AllHex(dto.color.value[1..])
  {
    assert ColorNotHex !in NoteViolations(dto);
    assert ColorSize !in NoteViolations(dto);
    var c := dto.color.value;
    forall i | 0 <= i < |c[1..]|
      ensures IsHexDigit(c[1..][i])
    {
      assert c[1..][i] == c[i + 1];
    }
  }

  /** The short `#RGB` form matches the pattern but is always refused by the size rule. */
  lemma ThreeDigitFormNeverAccepted(dto: NoteDto, d: string)
    requires AllHex(d) && |d| == 3
    requires dto.color == Some(['#'] + d)
    ensures IsColorHexColorValid(dto)
    ensures ColorSize in NoteViolations(dto)
    ensures NoteViolations(dto) != {}
  {
    HexColorIff(['#'] + d);
  }

  // ----- title and body -----

  /** A whitespace-only title with a null body is refused. */
  lemma WhitespaceTitleWithoutBodyRejected(dto: NoteDto)
    requires dto.title.Some? && AllTrimmable(dto.title.value)
    requires dto.body.None?
    ensures TitleOrBodyEmpty in NoteViolations(dto)
  {
    TitleOrBodyEmptyIff(dto);
  }

  lemma TitleOutOfRangeRejected(dto: NoteDto)
    requires dto.title.Some? && !(1 <= |dto.title.value| <= 50)
    ensures TitleSize in NoteViolations(dto)
  {
  }
}

=== FILE: entities.dfy ===
/** Stored entities. A note's tags are held as the ids of its join rows
    (the `notes_tags` table), so "the note holds tag t" means "t's id is in
    the note's tag list". */
module Entities {
  import opened Common
  import Dto

  /** Colour given to a note persisted without one. */
  const DefaultColor: string := "#FFFFFF"

  datatype Note = Note(id: Id, title: Option<string>, body: Option<string>, color: Option<string>, tags: seq<Id>)

  datatype Tag = Tag(id: Id, name: string)

  /** `@PrePersist prePersist`: a null colour becomes the default. */
  function PrePersist(n: Note): (r: Note)
    ensures r.color.Some?
    ensures n.color.Some? ==> r.color == n.color
    ensures n.color.None? ==> r.color == Some(DefaultColor)
    ensures r.id == n.id && r.title == n.title && r.body == n.body && r.tags == n.tags
  {
    if n.color.None? then n.(color := Some(DefaultColor)) else n
  }

  /** Length of the `body` column: its `@Column` gives no `length`, so the
      schema generated from the mapping makes it a 255-character column. */
  const BodyColumnLength: nat := 255

  /** A body the `body` column can hold: null, or at most 255 characters. */
  predicate BodyFits(body: Option<string>) {
    body.None? || |body.value| <= BodyColumnLength
  }

  /** Column constraints of `notes`: `@Length(1, 50)` on a present title,
      a body that fits its column, and a NOT NULL colour with `@Length(7, 7)`. */
  predicate NoteColumnsOk(n: Note) {
    && (n.title.None? || 1 <= |n.title.value| <= 50)
    && BodyFits(n.body)
    && n.color.Some? && |n.color.value| == 7
  }

  /** Column constraints of `tags`: `@Length(1, 50)` on the name. */
  predicate TagColumnsOk(t: Tag) {
    1 <= |t.name| <= 50
  }

  lemma PrePersistIdempotent(n: Note)
    ensures PrePersist(PrePersist(n)) == PrePersist(n)
  {
  }

  /** The default colour itself satisfies both colour rules of a note payload. */
  lemma DefaultColorIsValid()
    ensures |DefaultColor| == 7 && Dto.MatchesHexWebColor(DefaultColor)
  {
  }

  /** A note whose title and colour passed payload validation meets the
      column constraints once `prePersist` has run exactly when its body
      fits the column, which payload validation does not check. */
  lemma PrePersistMeetsColumns(n: Note)
    requires Dto.SizeWithin(n.title, 1, 50) && Dto.SizeWithin(n.color, 7, 7)
    ensures NoteColumnsOk(PrePersist(n)) <==> BodyFits(n.body)
  {
  }
}

=== FILE: notes_controller.dfy ===
/** The `/notes` endpoints over the store. Payload validation runs before the
    handler (a rejected payload is a 400 whatever the id); a missing entity
    is a 404; a write the database refuses is a 500. */
module NotesController {
  import opened Common
  import opened Dto
  import opened Entities
  import opened Repositories
  import opened Responses
  import Text

  /** `BeanUtils.copyProperties(dto, note)`: title, body and colour are
      overwritten, null values included. */
  function CopyProperties(dto: NoteDto, n: Note): (r: Note)
    ensures NoteDto(r.title, r.body, r.color) == dto
    ensures r.id == n.id && r.tags == n.tags
  {
    n.(title := dto.title, body := dto.body, color := dto.color)
  }

  /** `POST /notes`: a valid payload becomes a new note under `newId`, with no
      tags and the default colour when none was given. The handler returns the
      entity itself, so success is a 200. A body too long for its column is
      refused by the database (500). */
  function Create(s: Store, dto: NoteDto, newId: Id): (r: Reply<Note>)
    requires Valid(s) && newId !in s.notes
    ensures Valid(r.store)
    ensures r.status == BadRequest <==> NoteViolations(dto) != {}
    ensures r.status == BadRequest ==> r.body.None? && r.store == s
    ensures NoteViolations(dto) == {} && !BodyFits(dto.body) ==> r == Reply(ServerError, None, s)
    ensures NoteViolations(dto) == {} && BodyFits(dto.body) ==>
      && r.status == Ok
      && r.body.Some?
      && r.store == s.(notes := s.notes[newId := r.body.value])
    ensures r.status == Ok ==>
      && r.body.value.id == newId
      && r.body.value.title == dto.title
      && r.body.value.body == dto.body
      && r.body.value.color == Some(ValueOr(dto.color, DefaultColor))
      && r.body.value.tags == []
  {
    if NoteViolations(dto) != {} then Reply(BadRequest, None, s)
    else
      var blank := CopyProperties(dto, Note(newId, None, None, None, []));
      assert TitleSize !in NoteViolations(dto) && ColorSize !in NoteViolations(dto);
      PrePersistMeetsColumns(blank);
      var n := PrePersist(blank);
      assert Distinct(n.tags);
      match SaveNote(s, n)
      case Some(s') => SaveNoteKeepsValid(s, n); Reply(Ok, Some(n), s')
      case None => Reply(ServerError, None, s)
  }

  /** `PUT /notes/{id}` as written: every payload field, a null colour
      included, is copied onto the stored note. `prePersist` does not run on
      an update, so a payload without a colour leaves a null in the NOT NULL
      colour column and the write is refused; so is a body too long for its
      column. */
  function UpdateAsWritten(s: Store, id: Id, dto: NoteDto): (r: Reply<Note>)
    requires Valid(s)
    ensures Valid(r.store)
    ensures NoteViolations(dto) != {} ==> r == Reply(BadRequest, None, s)
    ensures NoteViolations(dto) == {} && id !in s.notes ==> r == Reply(NotFound, None, s)
    ensures NoteViolations(dto) == {} && id in s.notes ==>
      && (r.status == Ok <==> dto.color.Some? && BodyFits(dto.body))
      && (r.status == ServerError <==> dto.color.None? || !BodyFits(dto.body))
    ensures r.status == ServerError ==> r.store == s
    ensures dto.color.Some? ==> r == Update(s, id, dto)
  {
    if NoteViolations(dto) != {} then Reply(BadRequest, None, s)
    else if id !in s.notes then Reply(NotFound, None, s)
    else
      var n := CopyProperties(dto, s.notes[id]);
      match SaveNote(s, n)
      case Some(s') => SaveNoteKeepsValid(s, n); Reply(Ok, Some(n), s')
      case None => Reply(ServerError, None, s)
  }

  /** `PUT /notes/{id}`, with the colour kept when the payload carries none:
      title, body and a present colour overwrite the stored note; its id and
      tags stay. A body too long for its column is refused (500). */
  function Update(s: Store, id: Id, dto: NoteDto): (r: Reply<Note>)
    requires Valid(s)
    ensures Valid(r.store)
    ensures NoteViolations(dto) != {} ==> r == Reply(BadRequest, None, s)
    ensures NoteViolations(dto) == {} && id !in s.notes ==> r == Reply(NotFound, None, s)
    ensures NoteViolations(dto) == {} && id in s.notes && !BodyFits(dto.body) ==>
      r == Reply(ServerError, None, s)
    ensures NoteViolations(dto) == {} && id in s.notes && BodyFits(dto.body) ==>
      && r.status == Ok
      && r.store.tags == s.tags
      && r.store.notes.Keys == s.notes.Keys
      && (forall k :: k in s.notes && k != id ==> r.store.notes[k] == s.notes[k])
      && r.body == Some(r.store.notes[id])
      && r.store.notes[id].id == id
      && r.store.notes[id].tags == s.notes[id].tags
      && r.store.notes[id].title == dto.title
      && r.store.notes[id].body == dto.body
      && r.store.notes[id].color == (if dto.color.Some? then dto.color else s.notes[id].color)
  {
    if NoteViolations(dto) != {} then Reply(BadRequest, None, s)
    else if id !in s.notes then Reply(NotFound, None, s)
    else
      var current := s.notes[id];
      var n := CopyProperties(dto, current).(color := if dto.color.Some? then dto.color else current.color);
      match SaveNote(s, n)
      case Some(s') => SaveNoteKeepsValid(s, n); Reply(Ok, Some(n), s')
      case None => Reply(ServerError, None, s)
  }

  /** A payload without a colour makes the as-written update fail on any
      stored note; the corrected update changes it successfully whenever the
      body fits its column. */
  lemma UpdateWithoutColorFails(s: Store, id: Id, dto: NoteDto)
    requires Valid(s) && id in s.notes
    requires NoteViolations(dto) == {} && dto.color.None?
    ensures UpdateAsWritten(s, id, dto).status == ServerError
    ensures BodyFits(dto.body) ==>
      && Update(s, id, dto).status == Ok
      && Update(s, id, dto).store.notes[id].color == s.notes[id].color
  {
  }

  /** The same failure on a concrete request: a note holding only the title
      "t", updated with the payload {title: "t"}. */
  lemma UpdateWithoutColorExample()
    ensures var s := Store(map[0 := Note(0, Some("t"), None, Some(DefaultColor), [])], map[]);
            var dto := NoteDto(Some("t"), None, None);
            UpdateAsWritten(s, 0, dto).status == ServerError && Update(s, 0, dto).status == Ok
  {
    var s := Store(map[0 := Note(0, Some("t"), None, Some(DefaultColor), [])], map[]);
    var dto := NoteDto(Some("t"), None, None);
    assert NoteViolations(dto) == {} by {
      assert !Text.IsBlank("t");
    }
    UpdateWithoutColorFails(s, 0, dto);
  }

  /** `GET /notes/{id}`: always a 200; the body is empty when the id is unknown. */
  function Get(s: Store, id: Id): (r: Reply<Note>)
    ensures r.status == Ok && r.store == s
    ensures r.body.Some? <==> id in s.notes
    ensures r.body.Some? ==> r.body.value == s.notes[id]
  {
    Reply(Ok, if id in s.notes then Some(s.notes[id]) else None, s)
  }

  /** `GET /notes`: every stored note, each once, in the order the store lists them. */
  function List(s: Store, rows: seq<Id>): (r: seq<Note>)
    requires Valid(s) && IsEnumeration(rows, s.notes.Keys)
    ensures |r| == |s.notes|
    ensures forall k :: k in s.notes ==> s.notes[k] in r
    ensures forall n :: n in r ==> n.id in s.notes && s.notes[n.id] == n
  {
    var r := FindAll(s.notes, rows);
    assert forall k :: k in s.notes ==> s.notes[k] in r by {
      forall k | k in s.notes
        ensures s.notes[k] in r
      {
        var i :| 0 <= i < |rows| && rows[i] == k;
        assert r[i] == s.notes[k];
      }
    }
    r
  }

  /** `GET /notes/tag/{tagId}`: exactly the stored notes holding the tag; an
      empty list, not an error, when there are none. */
  function ListByTagId(s: Store, rows: seq<Id>, tagId: Id): (r: seq<Note>)
    requires Valid(s) && IsEnumeration(rows, s.notes.Keys)
    ensures forall k :: k in s.notes ==> (s.notes[k] in r <==> tagId in s.notes[k].tags)
    ensures forall n :: n in r ==> n.id in s.notes && s.notes[n.id] == n
    ensures (forall k :: k in s.notes ==> tagId !in s.notes[k].tags) ==> r == []
    ensures Distinct(r)
  {
    var r := FindByTagsId(s.notes, rows, tagId);
    FindByTagsIdDistinct(s.notes, rows, tagId);
    assert forall n :: n in r ==> n.id in s.notes && s.notes[n.id] == n && tagId in n.tags by {
      forall n | n in r
        ensures n.id in s.notes && s.notes[n.id] == n && tagId in n.tags
      {
        var j :| 0 <= j < |r| && r[j] == n;
        var i :| 0 <= i < |rows| && s.notes[rows[i]] == r[j];
      }
    }
    assert forall k :: k in s.notes && tagId in s.notes[k].tags ==> s.notes[k] in r by {
      forall k | k in s.notes && tagId in s.notes[k].tags
        ensures s.notes[k] in r
      {
        var i :| 0 <= i < |rows| && rows[i] == k;
      }
    }
    assert |r| > 0 ==> r[0] in r;
    r
  }

  /** `DELETE /notes/{id}`: removes exactly that note (and with it its join rows). */
  function Delete(s: Store, id: Id): (r: Reply<Note>)
    requires Valid(s)
    ensures Valid(r.store)
    ensures r.body.None?
    ensures id !in s.notes ==> r.status == NotFound && r.store == s
    ensures id in s.notes ==>
      && r.status == Ok
      && r.store.tags == s.tags
      && r.store.notes.Keys == s.notes.Keys - {id}
      && forall k :: k in r.store.notes ==> r.store.notes[k] == s.notes[k]
  {
    if id in s.notes then Reply(Ok, None, s.(notes := s.notes - {id}))
    else Reply(NotFound, None, s)
  }

  /** `PUT /notes/{id}/tag/{tagId}`: attaches the tag unless it is already
      attached; only that note's tag list changes. */
  function AddTag(s: Store, noteId: Id, tagId: Id): (r: Reply<Note>)
    requires Valid(s)
    ensures Valid(r.store)
    ensures noteId !in s.notes || tagId !in s.tags ==> r == Reply(NotFound, None, s)
    ensures noteId in s.notes && tagId in s.tags ==>
      && r.status == Ok
      && r.store.tags == s.tags
      && r.store.notes.Keys == s.notes.Keys
      && (forall k :: k in s.notes && k != noteId ==> r.store.notes[k] == s.notes[k])
      && r.body == Some(r.store.notes[noteId])
    ensures noteId in s.notes && tagId in s.tags && tagId in s.notes[noteId].tags ==> r.store == s
    ensures noteId in s.notes && tagId in s.tags && tagId !in s.notes[noteId].tags ==>
      r.store.notes[noteId] == s.notes[noteId].(tags := s.notes[noteId].tags + [tagId])
  {
    if noteId in s.notes && tagId in s.tags then
      var note := s.notes[noteId];
      if tagId !in note.tags then
        var n := note.(tags := note.tags + [tagId]);
        match SaveNote(s, n)
        case Some(s') => Reply(Ok, Some(n), s')
        case None => Reply(ServerError, None, s)
      else Reply(Ok, Some(note), s)
    else Reply(NotFound, None, s)
  }

  /** A stored note with one attached tag removed is accepted by the store,
      keeps the store valid, and no longer carries that tag. */
  lemma DetachedNoteSaves(s: Store, noteId: Id, tagId: Id)
    requires Valid(s) && noteId in s.notes && tagId in s.notes[noteId].tags
    ensures var n := s.notes[noteId].(tags := RemoveFirst(s.notes[noteId].tags, tagId));
            var i := FirstIndex(s.notes[noteId].tags, tagId);
            && n.tags == s.notes[noteId].tags[..i] + s.notes[noteId].tags[i + 1..]
            && SaveNote(s, n).Some?
            && Valid(SaveNote(s, n).value)
            && tagId !in n.tags
  {
    var note := s.notes[noteId];
    var n := note.(tags := RemoveFirst(note.tags, tagId));
    CutIndices(note.tags, FirstIndex(note.tags, tagId));
    assert NoteColumnsOk(n) && TagRefsOk(s.tags, n);
    RemoveFirstKeepsDistinct(note.tags, tagId);
    SaveNoteKeepsValid(s, n);
  }

  /** `DELETE /notes/{id}/tag/{tagId}`: detaches the tag if it is attached;
      the note's other tags keep their order. */
  function RemoveTag(s: Store, noteId: Id, tagId: Id): (r: Reply<Note>)
    requires Valid(s)
    ensures Valid(r.store)
    ensures noteId !in s.notes || tagId !in s.tags ==> r == Reply(NotFound, None, s)
    ensures noteId in s.notes && tagId in s.tags ==>
      && r.status == Ok
      && r.store.tags == s.tags
      && r.store.notes.Keys == s.notes.Keys
      && (forall k :: k in s.notes && k != noteId ==> r.store.notes[k] == s.notes[k])
      && r.body == Some(r.store.notes[noteId])
      && tagId !in r.store.notes[noteId].tags
    ensures noteId in s.notes && tagId in s.tags && tagId !in s.notes[noteId].tags ==> r.store == s
    ensures noteId in s.notes && tagId in s.tags && tagId in s.notes[noteId].tags ==>
      var i := FirstIndex(s.notes[noteId].tags, tagId);
      r.store.notes[noteId] == s.notes[noteId].(tags := s.notes[noteId].tags[..i] + s.notes[noteId].tags[i + 1..])
  {
    if noteId in s.notes && tagId in s.tags then
      var note := s.notes[noteId];
      if tagId in note.tags then
        var n := note.(tags := RemoveFirst(note.tags, tagId));
        DetachedNoteSaves(s, noteId, tagId);
        match SaveNote(s, n)
        case Some(s') => assert s'.notes[noteId] == n; Reply(Ok, Some(n), s')
        case None => Reply(ServerError, None, s)
      else Reply(Ok, Some(note), s)
    else Reply(NotFound, None, s)
  }

  /** Attaching twice is attaching once. */
  lemma AddTagIdempotent(s: Store, noteId: Id, tagId: Id)
    requires Valid(s)
    ensures AddTag(AddTag(s, noteId, tagId).store, noteId, tagId) == AddTag(s, noteId, tagId)
  {
  }

  /** After attaching, the tag occurs exactly once in the note's list. */
  lemma AddTagAttachesOnce(s: Store, noteId: Id, tagId: Id)
    requires Valid(s) && noteId in s.notes && tagId in s.tags
    ensures multiset(AddTag(s, noteId, tagId).store.notes[noteId].tags)[tagId] == 1
  {
    var r := AddTag(s, noteId, tagId);
    var tags := r.store.notes[noteId].tags;
    var i := FirstIndex(tags, tagId);
    assert tags == tags[..i] + [tagId] + tags[i + 1..];
    assert tagId !in tags[..i] + tags[i + 1..] by {
      assert Distinct(tags);
      assert forall j :: i + 1 <= j < |tags| ==> tags[j] != tags[i];
    }
    assert multiset(tags) == multiset(tags[..i] + tags[i + 1..]) + multiset{tagId} by {
      calc {
        multiset(tags);
        multiset(tags[..i] + [tagId] + tags[i + 1..]);
        multiset(tags[..i]) + multiset{tagId} + multiset(tags[i + 1..]);
        multiset(tags[..i] + tags[i + 1..]) + multiset{tagId};
      }
    }
  }

  /** Detaching twice is detaching once. */
  lemma RemoveTagIdempotent(s: Store, noteId: Id, tagId: Id)
    requires Valid(s)
    ensures RemoveTag(RemoveTag(s, noteId, tagId).store, noteId, tagId) == RemoveTag(s, noteId, tagId)
  {
  }

  /** Attaching a tag that was not attached and then detaching it restores the store. */
  lemma AddThenRemoveRestores(s: Store, noteId: Id, tagId: Id)
    requires Valid(s) && noteId in s.notes && tagId in s.tags && tagId !in s.notes[noteId].tags
    ensures RemoveTag(AddTag(s, noteId, tagId).store, noteId, tagId).store == s
  {
    var tags := s.notes[noteId].tags;
    var added := AddTag(s, noteId, tagId).store;
    assert added.notes[noteId].tags == tags + [tagId];
    assert FirstIndex(tags + [tagId], tagId) == |tags|;
    assert (tags + [tagId])[..|tags|] == tags;
    assert (tags + [tagId])[|tags| + 1..] == [];
    var restored := RemoveTag(added, noteId, tagId).store;
    assert restored.notes[noteId] == s.notes[noteId];
    assert restored.notes == s.notes;
  }

  /** A note shows up when listing by a tag right after the tag is attached to it. */
  lemma AddTagThenListByTag(s: Store, rows: seq<Id>, noteId: Id, tagId: Id)
    requires Valid(s) && IsEnumeration(rows, s.notes.Keys)
    requires noteId in s.notes && tagId in s.tags
    ensures var s' := AddTag(s, noteId, tagId).store;
            s'.notes[noteId] in ListByTagId(s', rows, tagId)
  {
    var s' := AddTag(s, noteId, tagId).store;
    assert s'.notes.Keys == s.notes.Keys;
    assert tagId in s'.notes[noteId].tags;
  }
}

=== FILE: paging.dfy ===
/** Offset pagination of tags ordered by name: the request defaults
    (page 0, size 10, ascending by name), sorting, and cutting one page. */
module Paging {
  import opened Common
  import opened Text
  import opened Entities

  const DefaultPageNumber: nat := 0
  const DefaultPageSize: nat := 10

  /** Page number and size as the client sent them; absent ones take the defaults. */
  datatype PageRequest = PageRequest(page: Option<nat>, size: Option<nat>)

  datatype Page = Page(content: seq<Tag>, number: nat, size: nat, totalElements: nat)

  /** The requested page number, page 0 when the request gives none. */
  function PageNumber(req: PageRequest): (n: nat)
    ensures req.page.None? ==> n == DefaultPageNumber
    ensures req.page.Some? ==> n == req.page.value
  {
    ValueOr(req.page, DefaultPageNumber)
  }

  /** A missing or zero size falls back to the default, so a page is never empty by construction. */
  function PageSize(req: PageRequest): (n: nat)
    ensures n >= 1
    ensures req.size.None? ==> n == DefaultPageSize
    ensures req.size.Some? && req.size.value >= 1 ==> n == req.size.value
    ensures req.size == Some(0) ==> n == DefaultPageSize
  {
    match req.size
    case Some(n) => if n >= 1 then n else DefaultPageSize
    case None => DefaultPageSize
  }

  /** Strictly ascending by name. */
  predicate StrictlySorted(xs: seq<Tag>) {
    forall i, j :: 0 <= i < j < |xs| ==> NameLess(xs[i].name, xs[j].name)
  }

  predicate DistinctNames(xs: seq<Tag>) {
    forall i, j :: 0 <= i < j < |xs| ==> xs[i].name != xs[j].name
  }

  /** Places `t` in a strictly ascending sequence whose names all differ from `t`'s. */
  function Insert(t: Tag, xs: seq<Tag>): (r: seq<Tag>)
    requires StrictlySorted(xs)
    requires forall i :: 0 <= i < |xs| ==> xs[i].name != t.name
    ensures StrictlySorted(r)
    ensures |r| == |xs| + 1
    ensures forall u :: u in r <==> u == t || u in xs
  {
    if |xs| == 0 then [t]
    else if NameLess(t.name, xs[0].name) then
      assert forall j :: 0 <= j < |xs| ==> NameLess(t.name, xs[j].name) by {
        forall j | 0 < j < |xs|
          ensures NameLess(t.name, xs[j].name)
        {
          NameLessTransitive(t.name, xs[0].name, xs[j].name);
        }
      }
      [t] + xs
    else
      NameLessTotal(t.name, xs[0].name);
      var rest := Insert(t, xs[1..]);
      assert forall j :: 0 <= j < |rest| ==> NameLess(xs[0].name, rest[j].name) by {
        forall j | 0 <= j < |rest|
          ensures NameLess(xs[0].name, rest[j].name)
        {
          if rest[j] != t {
            assert rest[j] in xs[1..];
          }
        }
      }
      [xs[0]] + rest
  }

  /** Insertion sort by name; requires distinct names, as the tags table guarantees. */
  function SortByName(xs: seq<Tag>): (r: seq<Tag>)
    requires DistinctNames(xs)
    ensures StrictlySorted(r)
    ensures |r| == |xs|
    ensures forall u :: u in r <==> u in xs
  {
    if |xs| == 0 then []
    else
      var rest := SortByName(xs[1..]);
      assert forall i :: 0 <= i < |rest| ==> rest[i].name != xs[0].name by {
        forall i | 0 <= i < |rest|
          ensures rest[i].name != xs[0].name
        {
          assert rest[i] in xs[1..];
        }
      }
      assert xs == [xs[0]] + xs[1..];
      Insert(xs[0], rest)
  }

  /** Two strictly ascending sequences of one length with the same elements are the same sequence. */
  lemma {:induction false} SortedUnique(a: seq<Tag>, b: seq<Tag>)
    requires StrictlySorted(a) && StrictlySorted(b) && |a| == |b|
    requires forall u :: u in a <==> u in b
    ensures a == b
  {
    if |a| > 0 {
      assert a[0] in b && b[0] in a;
      if a[0] != b[0] {
        var i :| 0 <= i < |a| && a[i] == b[0];
        var j :| 0 <= j < |b| && b[j] == a[0];
        assert i > 0 && j > 0;
        assert NameLess(a[0].name, b[0].name) && NameLess(b[0].name, a[0].name);
        NameLessTransitive(a[0].name, b[0].name, a[0].name);
        NameLessIrreflexive(a[0].name);
      }
      forall u
        ensures u in a[1..] <==> u in b[1..]
      {
        if u in a[1..] {
          var i :| 1 <= i < |a| && a[i] == u;
          NameLessIrreflexive(a[0].name);
          assert u != a[0];
          assert u in b;
        }
        if u in b[1..] {
          var i :| 1 <= i < |b| && b[i] == u;
          NameLessIrreflexive(b[0].name);
          assert u != b[0];
          assert u in a;
        }
      }
      SortedUnique(a[1..], b[1..]);
      assert a == [a[0]] + a[1..] && b == [b[0]] + b[1..];
    }
  }

  /** Index of the first element of page `number`. */
  function PageStart(number: nat, size: nat): nat {
    number * size
  }

  /** Elements `number * size` up to (excluding) `number * size + size` of
      `xs`, cut at its end. */
  function Slice(xs: seq<Tag>, number: nat, size: nat): (r: seq<Tag>)
    ensures |r| <= size
    ensures PageStart(number, size) >= |xs| ==> r == []
    ensures PageStart(number, size) + size <= |xs| ==> |r| == size
    ensures PageStart(number, size) < |xs| < PageStart(number, size) + size ==>
      |r| == |xs| - PageStart(number, size)
    ensures forall i :: 0 <= i < |r| ==>
      PageStart(number, size) + i < |xs| && r[i] == xs[PageStart(number, size) + i]
  {
    var lo := PageStart(number, size);
    if lo >= |xs| then []
    else
      var hi := if lo + size < |xs| then lo + size else |xs|;
      xs[lo..hi]
  }

  /** A slice of a strictly ascending sequence is strictly ascending and holds only its elements. */
  lemma SliceKeepsOrder(xs: seq<Tag>, number: nat, size: nat)
    requires StrictlySorted(xs)
    ensures StrictlySorted(Slice(xs, number, size))
    ensures forall u :: u in Slice(xs, number, size) ==> u in xs
  {
    var r := Slice(xs, number, size);
    forall i, j | 0 <= i < j < |r|
      ensures NameLess(r[i].name, r[j].name)
    {
      assert r[i] == xs[PageStart(number, size) + i] && r[j] == xs[PageStart(number, size) + j];
    }
    forall u | u in r
      ensures u in xs
    {
      var i :| 0 <= i < |r| && r[i] == u;
      assert u == xs[PageStart(number, size) + i];
    }
  }
}

=== FILE: repositories.dfy ===
/** The relational store behind both repositories: the `notes` and `tags`
    tables keyed by id, with the constraints the database enforces on write.
    The order in which the database returns rows is not modelled by the maps;
    where a result is a list, that order is a parameter `rows` listing the
    table's ids. */
module Repositories {
  import opened Common
  import opened Entities

  datatype Store = Store(notes: map<Id, Note>, tags: map<Id, Tag>)

  /** `rows` lists every id of a table exactly once. */
  predicate IsEnumeration(rows: seq<Id>, keys: set<Id>) {
    && |rows| == |keys|
    && Distinct(rows)
    && (forall i :: 0 <= i < |rows| ==> rows[i] in keys)
    && (forall k :: k in keys ==> k in rows)
  }

  /** Every join row of `n` points at an existing tag (the foreign key of `notes_tags`). */
  predicate TagRefsOk(tags: map<Id, Tag>, n: Note) {
    forall i :: 0 <= i < |n.tags| ==> n.tags[i] in tags
  }

  /** No tag other than `t` itself carries `t`'s name (the UNIQUE name column). */
  predicate NameFree(tags: map<Id, Tag>, t: Tag) {
    forall k :: k in tags && tags[k].name == t.name ==> k == t.id
  }

  predicate UniqueNames(tags: map<Id, Tag>) {
    forall a, b :: a in tags && b in tags && tags[a].name == tags[b].name ==> a == b
  }

  /** What every reachable store satisfies: rows sit under their own id,
      meet their column constraints, reference existing tags, carry no tag
      twice, and tag names are unique. */
  predicate Valid(s: Store) {
    && (forall k :: k in s.notes ==>
          && s.notes[k].id == k
          && NoteColumnsOk(s.notes[k])
          && TagRefsOk(s.tags, s.notes[k])
          && Distinct(s.notes[k].tags))
    && (forall k :: k in s.tags ==> s.tags[k].id == k && TagColumnsOk(s.tags[k]))
    && UniqueNames(s.tags)
  }

  /** `notesRepository.save`: insert or overwrite the row, or refuse the write
      (`None`) when a column or foreign-key constraint fails. */
  function SaveNote(s: Store, n: Note): (r: Option<Store>)
    ensures r.Some? <==> NoteColumnsOk(n) && TagRefsOk(s.tags, n)
    ensures r.Some? ==> r.value.tags == s.tags && r.value.notes.Keys == s.notes.Keys + {n.id}
    ensures r.Some? ==> r.value.notes[n.id] == n
    ensures r.Some? ==> forall k :: k in s.notes && k != n.id ==> r.value.notes[k] == s.notes[k]
  {
    if NoteColumnsOk(n) && TagRefsOk(s.tags, n) then Some(s.(notes := s.notes[n.id := n])) else None
  }

  /** A note write that passes the constraints and carries no tag twice keeps the store valid. */
  lemma SaveNoteKeepsValid(s: Store, n: Note)
    requires Valid(s) && SaveNote(s, n).Some? && Distinct(n.tags)
    ensures Valid(SaveNote(s, n).value)
  {
    var s' := SaveNote(s, n).value;
    forall k | k in s'.notes
      ensures s'.notes[k].id == k && NoteColumnsOk(s'.notes[k])
      ensures TagRefsOk(s'.tags, s'.notes[k]) && Distinct(s'.notes[k].tags)
    {
      if k != n.id {
        assert s'.notes[k] == s.notes[k];
      }
    }
  }

  /** `tagsRepository.save`: insert or overwrite the row, or refuse the write
      when the name length or the name uniqueness constraint fails. */
  function SaveTag(s: Store, t: Tag): (r: Option<Store>)
    ensures r.Some? <==> TagColumnsOk(t) && NameFree(s.tags, t)
    ensures r.Some? ==> r.value.notes == s.notes && r.value.tags.Keys == s.tags.Keys + {t.id}
    ensures r.Some? ==> r.value.tags[t.id] == t
    ensures r.Some? ==> forall k :: k in s.tags && k != t.id ==> r.value.tags[k] == s.tags[k]
  {
    if TagColumnsOk(t) && NameFree(s.tags, t) then Some(s.(tags := s.tags[t.id := t])) else None
  }

  /** `notesRepository.findByTagsId`: the notes, in row order, that hold tag `tagId`. */
  function FindByTagsId(notes: map<Id, Note>, rows: seq<Id>, tagId: Id): (r: seq<Note>)
    requires forall i :: 0 <= i < |rows| ==> rows[i] in notes
    ensures |r| <= |rows|
    ensures forall j :: 0 <= j < |r| ==>
      tagId in r[j].tags && exists i :: 0 <= i < |rows| && notes[rows[i]] == r[j]
    ensures forall i :: 0 <= i < |rows| && tagId in notes[rows[i]].tags ==> notes[rows[i]] in r
  {
    if |rows| == 0 then []
    else
      var rest := FindByTagsId(notes, rows[1..], tagId);
      assert forall j :: 0 <= j < |rest| ==> exists i :: 0 <= i < |rows| && notes[rows[i]] == rest[j] by {
        forall j | 0 <= j < |rest|
          ensures exists i :: 0 <= i < |rows| && notes[rows[i]] == rest[j]
        {
          var i :| 0 <= i < |rows[1..]| && notes[rows[1..][i]] == rest[j];
          assert notes[rows[i + 1]] == rest[j];
        }
      }
      if tagId in notes[rows[0]].tags then [notes[rows[0]]] + rest else rest
  }

  /** Distinct rows, each holding the note of its own id, yield each note once. */
  lemma {:induction false} FindByTagsIdDistinct(notes: map<Id, Note>, rows: seq<Id>, tagId: Id)
    requires forall i :: 0 <= i < |rows| ==> rows[i] in notes && notes[rows[i]].id == rows[i]
    requires Distinct(rows)
    ensures Distinct(FindByTagsId(notes, rows, tagId))
  {
    if |rows| > 0 {
      var rest := FindByTagsId(notes, rows[1..], tagId);
      FindByTagsIdDistinct(notes, rows[1..], tagId);
      forall j | 0 <= j < |rest|
        ensures rest[j] != notes[rows[0]]
      {
        var i :| 0 <= i < |rows[1..]| && notes[rows[1..][i]] == rest[j];
        assert rows[1..][i] == rows[i + 1] && rows[i + 1] != rows[0];
      }
    }
  }

  /** `findAll`: every row of a table, in row order. */
  function FindAll<V>(table: map<Id, V>, rows: seq<Id>): (r: seq<V>)
    requires forall i :: 0 <= i < |rows| ==> rows[i] in table
    ensures |r| == |rows|
    ensures forall i :: 0 <= i < |rows| ==> r[i] == table[rows[i]]
    ensures IsEnumeration(rows, table.Keys) ==> |r| == |table| && forall k :: k in table ==> table[k] in r
  {
    seq(|rows|, i requires 0 <= i < |rows| => table[rows[i]])
  }
}

=== FILE: responses.dfy ===
/** What a controller hands back: an HTTP status, an optional body, and the
    store as the request leaves it. */
module Responses {
  import opened Common
  import opened Repositories

  /** 200, 201, 400, 404 and 500. A 500 stands for a write the database refused. */
  datatype Status = Ok | Created | BadRequest | NotFound | ServerError

  datatype Reply<T> = Reply(status: Status, body: Option<T>, store: Store)
}

=== FILE: tags_controller.dfy ===
/** The `/tags` endpoints over the store, including the name-ordered page. */
module TagsController {
  import opened Common
  import opened Dto
  import opened Entities
  import opened Repositories
  import opened Responses
  import opened Paging
  import NotesController

  /** `POST /tags`: a valid payload becomes a new tag under `newId` (201),
      unless another tag already has that name and the write is refused. */
  function Create(s: Store, dto: TagDto, newId: Id): (r: Reply<Tag>)
    requires Valid(s) && newId !in s.tags
    ensures Valid(r.store)
    ensures TagViolations(dto) != {} ==> r == Reply(BadRequest, None, s)
    ensures TagViolations(dto) == {} ==> dto.name.Some?
    ensures TagViolations(dto) == {} && !NameFree(s.tags, Tag(newId, dto.name.value)) ==>
      r == Reply(ServerError, None, s)
    ensures TagViolations(dto) == {} && NameFree(s.tags, Tag(newId, dto.name.value)) ==>
      && r.status == Created
      && r.body == Some(Tag(newId, dto.name.value))
      && r.store == s.(tags := s.tags[newId := Tag(newId, dto.name.value)])
  {
    if TagViolations(dto) != {} then Reply(BadRequest, None, s)
    else
      var t := Tag(newId, dto.name.value);
      match SaveTag(s, t)
      case Some(s') => Reply(Created, Some(t), s')
      case None => Reply(ServerError, None, s)
  }

  /** `PUT /tags/{id}`: renames a stored tag, keeping its id (200); refused
      when another tag already has the new name. */
  function Update(s: Store, id: Id, dto: TagDto): (r: Reply<Tag>)
    requires Valid(s)
    ensures Valid(r.store)
    ensures TagViolations(dto) != {} ==> r == Reply(BadRequest, None, s)
    ensures TagViolations(dto) == {} && id !in s.tags ==> r == Reply(NotFound, None, s)
    ensures TagViolations(dto) == {} && id in s.tags ==>
      && dto.name.Some?
      && (r.status == Ok <==> NameFree(s.tags, Tag(id, dto.name.value)))
      && (r.status != Ok ==> r == Reply(ServerError, None, s))
    ensures r.status == Ok ==>
      && id in s.tags
      && r.store.notes == s.notes
      && r.store.tags == s.tags[id := Tag(id, dto.name.value)]
      && r.body == Some(Tag(id, dto.name.value))
  {
    if TagViolations(dto) != {} then Reply(BadRequest, None, s)
    else if id !in s.tags then Reply(NotFound, None, s)
    else
      var t := s.tags[id].(name := dto.name.value);
      match SaveTag(s, t)
      case Some(s') => Reply(Ok, Some(t), s')
      case None => Reply(ServerError, None, s)
  }

  /** `GET /tags/{id}`: always a 200; the body is empty when the id is unknown. */
  function Get(s: Store, id: Id): (r: Reply<Tag>)
    ensures r.status == Ok && r.store == s
    ensures r.body.Some? <==> id in s.tags
    ensures r.body.Some? ==> r.body.value == s.tags[id]
  {
    Reply(Ok, if id in s.tags then Some(s.tags[id]) else None, s)
  }

  /** `GET /tags`: every stored tag, each once. */
  function List(s: Store, rows: seq<Id>): (r: seq<Tag>)
    requires Valid(s) && IsEnumeration(rows, s.tags.Keys)
    ensures |r| == |s.tags|
    ensures forall k :: k in s.tags ==> s.tags[k] in r
    ensures forall t :: t in r ==> t.id in s.tags && s.tags[t.id] == t
  {
    var r := FindAll(s.tags, rows);
    assert forall k :: k in s.tags ==> s.tags[k] in r by {
      forall k | k in s.tags
        ensures s.tags[k] in r
      {
        var i :| 0 <= i < |rows| && rows[i] == k;
        assert r[i] == s.tags[k];
      }
    }
    r
  }

  /** `DELETE /tags/{id}`: removes exactly that tag together with its join
      rows; every note keeps everything but that tag. */
  function Delete(s: Store, id: Id): (r: Reply<Tag>)
    requires Valid(s)
    ensures Valid(r.store)
    ensures r.body.None?
    ensures id !in s.tags ==> r.status == NotFound && r.store == s
    ensures id in s.tags ==>
      && r.status == Ok
      && r.store.tags.Keys == s.tags.Keys - {id}
      && (forall k :: k in r.store.tags ==> r.store.tags[k] == s.tags[k])
      && r.store.notes.Keys == s.notes.Keys
      && (forall k :: k in s.notes ==> r.store.notes[k] == s.notes[k].(tags := Without(s.notes[k].tags, id)))
  {
    if id in s.tags then
      var notes := map k | k in s.notes :: s.notes[k].(tags := Without(s.notes[k].tags, id));
      var s' := Store(notes, s.tags - {id});
      assert Valid(s') by {
        forall k | k in notes
          ensures TagRefsOk(s'.tags, notes[k])
        {
          var ts := notes[k].tags;
          forall i | 0 <= i < |ts|
            ensures ts[i] in s'.tags
          {
            assert ts[i] in s.notes[k].tags;
          }
        }
      }
      Reply(Ok, None, s')
    else Reply(NotFound, None, s)
  }

  /** After a tag is deleted, listing notes by it yields nothing. */
  lemma DeleteDetachesEverywhere(s: Store, rows: seq<Id>, id: Id)
    requires Valid(s) && id in s.tags
    requires IsEnumeration(rows, s.notes.Keys)
    ensures NotesController.ListByTagId(Delete(s, id).store, rows, id) == []
  {
  }

  /** Distinct rows of a valid store name distinct tags. */
  lemma GatheredNamesDistinct(s: Store, rows: seq<Id>)
    requires Valid(s) && IsEnumeration(rows, s.tags.Keys)
    ensures DistinctNames(FindAll(s.tags, rows))
  {
    var all := FindAll(s.tags, rows);
    forall i, j | 0 <= i < j < |all|
      ensures all[i].name != all[j].name
    {
      assert rows[i] != rows[j];
    }
  }

  /** `GET /tags/paginate`: page `number` of `size` tags (by default page 0
      of 10) in ascending name order. */
  function Paginate(s: Store, rows: seq<Id>, req: PageRequest): (p: Page)
    requires Valid(s) && IsEnumeration(rows, s.tags.Keys)
    ensures p.number == PageNumber(req) && p.size == PageSize(req) && p.totalElements == |s.tags|
    ensures StrictlySorted(p.content)
    ensures |p.content| <= p.size
    ensures forall t :: t in p.content ==> t.id in s.tags && s.tags[t.id] == t
  {
    var all := FindAll(s.tags, rows);
    GatheredNamesDistinct(s, rows);
    var sorted := SortByName(all);
    var content := Slice(sorted, PageNumber(req), PageSize(req));
    SliceKeepsOrder(sorted, PageNumber(req), PageSize(req));
    Page(content, PageNumber(req), PageSize(req), |s.tags|)
  }

  /** `xs` lists every stored tag once, in strictly ascending name order. */
  predicate IsNameOrdering(xs: seq<Tag>, tags: map<Id, Tag>) {
    && |xs| == |tags|
    && StrictlySorted(xs)
    && (forall i :: 0 <= i < |xs| ==> xs[i].id in tags && tags[xs[i].id] == xs[i])
    && (forall k :: k in tags ==> tags[k] in xs)
  }

  /** A page is the slice [number * size, number * size + size) of the tags in
      name order, cut at the end; it does not depend on the order in which
      the store lists its rows. */
  lemma PageIsSliceOfNameOrdering(s: Store, rows: seq<Id>, req: PageRequest, xs: seq<Tag>)
    requires Valid(s) && IsEnumeration(rows, s.tags.Keys)
    requires IsNameOrdering(xs, s.tags)
    ensures Paginate(s, rows, req).content == Slice(xs, PageNumber(req), PageSize(req))
  {
    var all := FindAll(s.tags, rows);
    var sorted := SortByName(all);
    assert forall u :: u in sorted <==> u in xs by {
      forall u
        ensures u in sorted <==> u in xs
      {
        if u in sorted {
          var i :| 0 <= i < |all| && all[i] == u;
        }
        if u in xs {
          var i :| 0 <= i < |xs| && xs[i] == u;
          assert u == s.tags[u.id];
          var j :| 0 <= j < |rows| && rows[j] == u.id;
          assert all[j] == u;
        }
      }
    }
    SortedUnique(sorted, xs);
  }

  /** The same request yields the same page whatever the row order. */
  lemma PageIndependentOfRowOrder(s: Store, rows1: seq<Id>, rows2: seq<Id>, req: PageRequest)
    requires Valid(s) && IsEnumeration(rows1, s.tags.Keys) && IsEnumeration(rows2, s.tags.Keys)
    ensures Paginate(s, rows1, req) == Paginate(s, rows2, req)
  {
    var xs := SortByName(FindAll(s.tags, rows1));
    assert IsNameOrdering(xs, s.tags) by {
      var all := FindAll(s.tags, rows1);
      forall k | k in s.tags
        ensures s.tags[k] in xs
      {
        var j :| 0 <= j < |rows1| && rows1[j] == k;
        assert all[j] == s.tags[k];
      }
      forall i | 0 <= i < |xs|
        ensures xs[i].id in s.tags && s.tags[xs[i].id] == xs[i]
      {
        assert xs[i] in all;
      }
    }
    PageIsSliceOfNameOrdering(s, rows1, req, xs);
    PageIsSliceOfNameOrdering(s, rows2, req, xs);
  }

  /** The default request (page 0, size 10) yields the first ten tags in name order. */
  lemma DefaultPageIsFirstTen(s: Store, rows: seq<Id>, xs: seq<Tag>)
    requires Valid(s) && IsEnumeration(rows, s.tags.Keys)
    requires IsNameOrdering(xs, s.tags)
    ensures var p := Paginate(s, rows, PageRequest(None, None));
            && p.number == 0 && p.size == 10
            && |p.content| <= 10
            && p.content == xs[..if |xs| < 10 then |xs| else 10]
  {
    var req := PageRequest(None, None);
    assert PageNumber(req) == 0 && PageSize(req) == 10;
    PageIsSliceOfNameOrdering(s, rows, req, xs);
    var first := Slice(xs, 0, 10);
    assert PageStart(0, 10) == 0;
    assert first == xs[..if |xs| < 10 then |xs| else 10];
  }
}

=== FILE: text.dfy ===
/** The two string operations the service depends on: `String.trim()`
    (for the blank test) and the ascending order tags are sorted by. */
module Text {

  /** `String.trim()` strips every character up to and including U+0020. */
  predicate IsTrimmable(c: char) {
    c <= ' '
  }

  /** Every character of `s` would be stripped by trimming. */
  predicate AllTrimmable(s: string) {
    forall i :: 0 <= i < |s| ==> IsTrimmable(s[i])
  }

  /** `s` with its leading trimmable characters removed. */
  function TrimStart(s: string): (r: string)
    ensures |r| <= |s| && r == s[|s| - |r|..]
    ensures |r| > 0 ==> !IsTrimmable(r[0])
    ensures forall i :: 0 <= i < |s| - |r| ==> IsTrimmable(s[i])
  {
    if |s| > 0 && IsTrimmable(s[0]) then TrimStart(s[1..]) else s
  }

  /** `s` with its trailing trimmable characters removed. */
  function TrimEnd(s: string): (r: string)
    ensures |r| <= |s| && r == s[..|r|]
    ensures |r| > 0 ==> !IsTrimmable(r[|r| - 1])
    ensures forall i :: |r| <= i < |s| ==> IsTrimmable(s[i])
  {
    if |s| > 0 && IsTrimmable(s[|s| - 1]) then TrimEnd(s[..|s| - 1]) else s
  }

  /** `String.trim()`. */
  function Trim(s: string): string {
    TrimEnd(TrimStart(s))
  }

  /** `"".equals(s.trim())`. */
  predicate IsBlank(s: string) {
    Trim(s) == ""
  }

  /** A string is blank exactly when it consists of trimmable characters only. */
  lemma BlankIffAllTrimmable(s: string)
    ensures IsBlank(s) <==> AllTrimmable(s)
  {
    var t := TrimStart(s);
    if IsBlank(s) {
      assert TrimEnd(t) == "";
    } else {
      var u := TrimEnd(t);
      assert |u| > 0;
      assert !IsTrimmable(u[0]);
      assert u[0] == s[|s| - |t|];
    }
  }

  /** Ascending name order: characters compared one by one, a proper prefix first. */
  predicate NameLess(a: string, b: string) {
    if |a| == 0 then |b| > 0
    else if |b| == 0 then false
    else if a[0] != b[0] then a[0] < b[0]
    else NameLess(a[1..], b[1..])
  }

  lemma {:induction false} NameLessIrreflexive(a: string)
    ensures !NameLess(a, a)
  {
    if |a| > 0 {
      NameLessIrreflexive(a[1..]);
    }
  }

  lemma {:induction false} NameLessTransitive(a: string, b: string, c: string)
    requires NameLess(a, b) && NameLess(b, c)
    ensures NameLess(a, c)
  {
    if |a| > 0 && |b| > 0 && |c| > 0 && a[0] == b[0] && b[0] == c[0] {
      NameLessTransitive(a[1..], b[1..], c[1..]);
    }
  }

  lemma {:induction false} NameLessTotal(a: string, b: string)
    requires a != b
    ensures NameLess(a, b) || NameLess(b, a)
  {
    if |a| > 0 && |b| > 0 && a[0] == b[0] {
      assert a == [a[0]] + a[1..] && b == [b[0]] + b[1..];
      NameLessTotal(a[1..], b[1..]);
    }
  }
}
